=== FILE: README.md ===
# Task list engine of a browser to-do app, in Dafny

This project models the list logic of `script.js`, a single-page to-do list.
The page keeps one ordered array of tasks, `tasks`. Its event handlers change
that array: add, toggle, delete, edit, sort, drag-and-drop reorder and import.
After most changes the page writes the array to `localStorage`. It derives the
visible list (search box plus all/active/completed filter) and the counters
(total, completed, active, percentage) from the same array.

Layout, one module per file:

- `wrappers.dfy` (`Wrappers`): `Option`.
- `seqs.dfy` (`Seqs`): `Filter` (the `Array.prototype.filter` the page uses),
  subsequences, and the lemmas about them.
- `text.dfy` (`Text`): `trim` with ECMAScript's full white-space set,
  `toLowerCase` on ASCII letters, and `includes`.
- `tasks.dfy` (`Tasks`): the `Task` record. Look-up by id, modelled on
  `Array.prototype.find` (first match). The list-level effects of toggle, edit
  and delete.
- `view.dfy` (`View`): the filter callback of `renderTasks` and the arithmetic
  of `updateStats`.
- `ordering.dfy` (`Ordering`): the four comparators of `sortTasks` and the
  stable order they produce.
- `dragdrop.dfy` (`DragDrop`): the list the `drop` handler rebuilds.
- `store.dfy` (`Store`): `TaskStore`, a class with the list (`tasks`) and the
  storage slot (`slot`). Each handler that changes them is a method.

Behaviour of the code worth knowing:

- The `drop` handler (script.js:367-379) assigns the new list but never calls
  `saveTasksToStorage`. `TaskStore.Reorder` leaves `slot` unchanged.
- `toggleTask` and `updateTask` use `find`, so they change the FIRST task
  with the id. `deleteTask` uses `filter`, so it removes EVERY task with the
  id. The two differ only when ids repeat, which an import can cause. In the
  model each list position holds its own value, so toggle and edit change one
  position. After a drop that lists a repeated id, the page holds one object
  at two positions and changes both (see "## Left out").
- A confirmed `deleteTask` saves even when no task has the id.
- A drop made while a search or status filter is active keeps only the
  visible tasks (`DragDrop.ReorderWhileFilteredDropsHidden`). The model keeps
  this behaviour.
- `updateTask` does not reject empty text, and neither does `TaskStore.Update`.
- Ids stay unique under add, toggle, edit, delete and sort. After a drop they stay unique when the
  ids on the page are all different. `importTasksFromJSON` does not check ids, so an import is
  the one way repeated ids can enter the list.

`sortTasks` calls the built-in `tasks.sort`, so `TaskStore.Sort` has no loop of
its own. It assigns `Ordering.Sorted`, a stable insertion sort.
`Ordering.StableSortIsUnique` shows that any stable sort with the same
comparators gives exactly that list. `Array.prototype.sort` is stable.

## Model

| member | source | states |
|---|---|---|
| `Text.Trim` | script.js:99-106 | the result is the input without leading and trailing white space; it is empty exactly when the input is all white space |
| `Text.TrimIdempotent` | script.js:106 | trimming an already trimmed text changes nothing |
| `Text.Lower` | script.js:232-237 | lower-casing keeps the length and maps each character on its own |
| `Text.LowerIdempotent` | script.js:232-237 | lower-casing twice is lower-casing once |
| `Text.Contains` | script.js:236-237 | `includes`: the search text occurs in the string at some position |
| `Text.EveryStringContainsEmpty` | script.js:236-237 | `includes("")` holds for every text |
| `Tasks.FindFirst` | script.js:128 | the index found holds the first task with the id; with no index, no task has it |
| `Tasks.Lookup` | script.js:375 | the task found is the FIRST task in the list with the id; nothing is found exactly when no task has the id |
| `Tasks.LookupOwnId` | script.js:375 | with unique ids, looking up a task's own id finds that task |
| `Tasks.Toggled` | script.js:127-130 | the length is kept; only `completed` can change, and it flips exactly at the first task with the id |
| `Tasks.ToggleTwiceRestores` | script.js:127-130 | toggling the same id twice gives back the original list |
| `Tasks.ToggleUnknownIdIsNoOp` | script.js:128-129 | an id no task has leaves the list unchanged |
| `Tasks.Updated` | script.js:158-164 | the first task with the id gets the new text, category, priority and due date; every id, `completed` and `createdAt` is kept; every other task is unchanged |
| `Tasks.ToggleKeepsUniqueIds` | script.js:127-130 | toggling keeps every id at its position, so unique ids stay unique |
| `Tasks.UpdateKeepsUniqueIds` | script.js:158-164 | editing keeps every id at its position, so unique ids stay unique |
| `Tasks.UpdateTwiceSameAsOnce` | script.js:158-164 | saving the same edit twice equals saving it once |
| `Tasks.Deleted` | script.js:139 | the result is an order-preserving subsequence; it keeps every copy of each task whose id differs and no task with the id |
| `Tasks.DeleteTwiceSameAsOnce` | script.js:137-139 | a second delete of the same id removes nothing |
| `Tasks.DeleteUndoesAdd` | script.js:114 | deleting the id of a task just put in front, with an id new to the list, gives the old list back |
| `Tasks.DeleteKeepsUniqueIds` | script.js:139 | deleting from a list with unique ids leaves unique ids |
| `Tasks.DeleteRemovesOne` | script.js:139 | with unique ids, deleting a present id shortens the list by exactly one |
| `View.Keep` | script.js:234-244 | the filter callback: the lower-cased term occurs in the lower-cased text or category, and the task passes the status filter (`all` and unknown filters pass every task) |
| `View.Project` | script.js:234-244 | the visible list is an order-preserving subsequence; it keeps every copy of each task that matches the search and passes the status filter, and no other task |
| `View.EmptySearchMatchesAll` | script.js:232-239 | with an empty search term only the status filter decides |
| `View.SearchIgnoresTermCase` | script.js:232-237 | lower-casing the search term first does not change the visible list |
| `View.SearchWorkFindsCategoryWork` | script.js:235-237 | a task in category "Work" is found by the search "work" |
| `View.ViewAllIsWholeList` | script.js:239 | `all` with no search term shows the whole list, in order |
| `View.ViewActiveIsActiveTasks` | script.js:240 | `active` with no search term shows exactly the unfinished tasks, in order |
| `View.ViewCompletedIsCompletedTasks` | script.js:241 | `completed` with no search term shows exactly the completed tasks, in order |
| `View.RoundedPercent` | script.js:326-327 | the percentage lies in 0..100 and is the nearest whole number to 100·completed/total, halves rounded up |
| `View.ComputeStats` | script.js:322-327 | total is the length; completed and active count the completed and unfinished tasks and add up to total; the percentage is 0 for an empty list and otherwise rounded as above |
| `View.HalfCompletedIsFifty` | script.js:326-327 | half of the tasks completed (2 of 4, say) gives 50 |
| `View.AllCompletedIsHundred` | script.js:326-327 | every task completed gives 100 |
| `View.EmptyListIsZero` | script.js:323-327 | the empty list gives all counts 0 and percentage 0 |
| `Ordering.CompareDueDateAsWritten` | script.js:218-222 | the `duedate` comparator as written: 1 when `a` has no due date, -1 when only `b` has none, otherwise the date difference |
| `Ordering.DueDateComparatorInconsistent` | script.js:218-222 | as written, two tasks without a due date each compare as "after" the other, and a task does not compare equal to itself |
| `Ordering.Compare` | script.js:204-222 | each comparator (due date corrected) is negative, zero or positive exactly as the tasks' sort keys are ordered |
| `Ordering.CompareIsConsistent` | script.js:204-222 | the corrected comparators are antisymmetric and call a task equal to itself |
| `Ordering.Sorted` | script.js:203-224 | the list `sortTasks` leaves: a stable sort by the selected key, and the list unchanged for an unrecognised key |
| `Ordering.SortPermutes` | script.js:203-224 | sorting neither loses nor duplicates a task |
| `Ordering.SortKeepsUniqueIds` | script.js:203-224 | sorting a list with unique ids leaves unique ids |
| `Ordering.SortOrderedAndStable` | script.js:206-222 | the sorted list is in key order, and tasks with equal keys keep their relative order |
| `Ordering.StableSortIsUnique` | script.js:206-222 | every list that is in key order and stable equals the modelled result |
| `Ordering.SortUnrecognizedKeepsOrder` | script.js:204-224 | an unrecognised sort key leaves the order unchanged |
| `Ordering.SortByPriorityGroups` | script.js:211-215 | `priority`: high before medium before low |
| `Ordering.SortByDueDateMissingLast` | script.js:217-222 | `duedate`: tasks without a due date come after all others; dated tasks are in date order |
| `Ordering.SortByDateAscending` | script.js:205-206 | `date-asc`: creation times never decrease |
| `Ordering.SortByDateDescending` | script.js:208-209 | `date-desc`: creation times never increase |
| `DragDrop.Reordered` | script.js:371-378 | the ids of the new list are the listed ids that match a task, in on-screen order; the task at each position is the first task with that id. Hence it is no longer than the id list, and each listed id that matches contributes its task |
| `DragDrop.ReorderedIsDetermined` | script.js:371-378 | any list whose ids are the matching listed ids in order, each position holding the first task with its id, is the rebuilt list |
| `DragDrop.ReorderDistinctIdsKeepsUniqueIds` | script.js:371-378 | a drop whose on-screen ids are all different leaves unique ids |
| `DragDrop.ReorderedLength` | script.js:373-376 | when every listed id matches a task, there is one task per id |
| `DragDrop.ReorderKeepsExactlyListed` | script.js:371-378 | with unique ids, exactly the tasks whose ids are listed survive; the rest are dropped |
| `DragDrop.ReorderOfAllIdsKeepsAll` | script.js:371-378 | when every task's id is listed once, the length is kept, every task survives, and the new list's ids are exactly the on-screen order |
| `DragDrop.ReorderWhileFilteredDropsHidden` | script.js:371-378 | when only the visible tasks are on the page, a drop keeps exactly the tasks that pass the search and filter |
| `DragDrop.ReorderTwiceSameAsOnce` | script.js:367-378 | running the handler again on the same on-screen order changes nothing |
| `Store.TaskStore.Load` | script.js:18-32 | an absent or unreadable slot gives an empty list; otherwise the stored list |
| `Store.TaskStore.Save` | script.js:8-16 | the slot holds the current list |
| `Store.TaskStore.Add` | script.js:99-117 | white-space-only text changes nothing. Otherwise the list grows by one and the new task is at index 0, with trimmed non-empty text and `completed` false. The old tasks follow in order, the list is saved, and unique ids stay unique |
| `Store.TaskStore.Toggle` | script.js:127-135 | the list becomes `Toggled` of the old one and is saved only when a task has the id; unique ids stay unique |
| `Store.TaskStore.Delete` | script.js:137-144 | when confirmed, the list becomes `Deleted` of the old one and is saved; unconfirmed, nothing changes; unique ids stay unique |
| `Store.TaskStore.Update` | script.js:158-171 | the list becomes `Updated` of the old one and is saved only when a task has the id; unique ids stay unique |
| `Store.TaskStore.Sort` | script.js:203-227 | the list becomes `Sorted` of the old one, a permutation of it, and is saved for every key; unique ids stay unique |
| `Store.TaskStore.Reorder` | script.js:367-379 | the list becomes `Reordered` of the old one (the first task for each matching listed id, in on-screen order), no longer than the id list, and the slot is not written; when the on-screen ids are all different, the new list has unique ids |
| `Store.TaskStore.Import` | script.js:45-61 | an array replaces the list verbatim and is saved. A non-array or a parse error leaves list and slot unchanged. Each case ends with its own alert |
| `Store.SaveThenLoadRoundTrip` | script.js:8-32 | a list saved and loaded again is the same list, in the same order. This restates the storage abstraction (the slot holds the list itself); the JSON round trip is not modelled |

## Findings

| source | as written | input that shows it | evidently intended | confidence | as-written member | corrected member |
|---|---|---|---|---|---|---|
| script.js:218-222 | the `duedate` comparator returns 1 whenever `a` has no due date, even when `b` has none either | two tasks with empty due dates: `cmp(a, b) == 1` and `cmp(b, a) == 1`, and `cmp(a, a) == 1` | two missing due dates compare equal (0). The comparator is then consistent, as `Array.prototype.sort` requires, and undated tasks keep their relative order | medium, not executed | `Ordering.DueDateComparatorInconsistent` | `Ordering.CompareIsConsistent` |

The rest of the model sorts with the corrected comparator (`Ordering.Compare`, `Ordering.KeyOf`).

## Left out

- Rendering: the HTML built in `renderTasks` (script.js:246-319), the DOM writes in `updateStats` (script.js:329-334) and `setupDragAndDrop`'s `dragover` moves (script.js:338-365). The model starts from the id order seen at the drop.
- Theme toggling and the saved theme (script.js:67-86, 401-412): not part of the list logic.
- `editTask`, `closeEditModal` and `setFilter` (script.js:146-156, 173-197): dialog and button state only. `TaskStore.Update` takes the target id and the new values as parameters, and the view takes the status filter and the search text as parameters.
- Keyboard shortcuts (script.js:383-393) and `initializeApp` (script.js:396-421): event wiring.
- `localStorage`, `console`, `FileReader`, `Blob`, `URL` and the download link (script.js:8-47, 63). The storage slot is a field holding a list. Save failures (quota, serialisation errors) are not modelled: `Save` always succeeds.
- `exportTasksAsJSON` (script.js:34-43): it only formats the list as JSON text. Since JSON text is not modelled, exporting and importing again is `Import(AnArray(tasks))`, which leaves the list as it was.
- `JSON.parse` and `JSON.stringify`: an import arrives already parsed as a `ParsedImport`. Array elements are typed as `Task`, so malformed elements cannot be expressed. A stored value that parses to a non-array is not modelled.
- `generateId` (script.js:89-91) uses the clock and a random number. It becomes the `freshId` parameter of `TaskStore.Add`, with the precondition that no task already has that id.
- `new Date(...)`, `toISOString` and date parsing: `createdAt` and due dates are integers. An empty due-date input is `None`. Unparsable date strings are not modelled.
- `alert` and `confirm`: `confirm` is the `confirmed` parameter of `TaskStore.Delete`. The import alerts are `ImportOutcome`; the empty-text alert is `Add` returning false.
- Object identity and aliasing: `tasks` holds references, and the model holds values. A drop that lists a repeated id (after an import with repeated ids) puts the same object at two positions (script.js:375-376). A later `toggleTask` or `updateTask` (script.js:128-130, 159-164) then changes both positions, and the next save writes both. `Tasks.Toggled`, `Tasks.Updated` and the `TaskStore` methods change only the first position, so the model does not capture this case.
- Text.Lower: lower-cases ASCII letters only. JavaScript's `toLowerCase` also maps non-ASCII letters, so searches involving them are not modelled.
- View.RoundedPercent: uses exact rational rounding. JavaScript rounds the floating-point `completed / total * 100`, which may differ when the exact value is a half.
- Ordering.Compare: the `duedate` comparator calls two missing due dates equal, as corrected under Findings. With the as-written comparator, `Array.prototype.sort` leaves the resulting order implementation-defined.

=== FILE: dragdrop.dfy ===
/**
  The `drop` handler of script.js:367-379: the list is rebuilt from the ids of
  the task elements left on the page, in their on-screen order. For each id the
  first task with that id is appended; an id that matches no task is skipped,
  and a task whose id is not on the page is not carried over.
 */
module DragDrop {
  import opened Wrappers
  import opened Seqs
  import opened Tasks
  import View

  /** The listed ids that some task has, in on-screen order. */
  function MatchedIds(ts: seq<Task>, ids: seq<string>): seq<string>
  {
    Filter(ids, (id: string) => HasId(ts, id))
  }

  /**
    The list the drop handler builds from the on-screen id order `ids`: one
    task per listed id that matches, in the order the ids are listed, each the
    first task with its id.
   */
  function Reordered(ts: seq<Task>, ids: seq<string>): (r: seq<Task>)
    ensures IdsOf(r) == MatchedIds(ts, ids)
    ensures forall k :: 0 <= k < |r| ==> Lookup(ts, r[k].id) == Some(r[k])
    ensures |r| <= |ids|
    ensures forall u :: u in r ==> u in ts && u.id in ids && Lookup(ts, u.id) == Some(u)
    ensures forall id :: id in ids && HasId(ts, id) ==> Lookup(ts, id).value in r
  {
    if ids == [] then []
    else
      var init, last := ids[..|ids| - 1], ids[|ids| - 1];
      var prefix := Reordered(ts, init);
      assert ids == init + [last];
      MatchedIdsAppend(ts, init, last);
      assert forall id :: id in ids ==> id in init || id == last;
      match Lookup(ts, last)
      case Some(t) =>
        IdsOfAppend(prefix, t);
        prefix + [t]
      case None => prefix
  }

  lemma MatchedIdsAppend(ts: seq<Task>, ids: seq<string>, id: string)
    ensures MatchedIds(ts, ids + [id]) == MatchedIds(ts, ids) + (if HasId(ts, id) then [id] else [])
  {
    FilterConcat(ids, [id], (id: string) => HasId(ts, id));
  }

  lemma IdsOfAppend(ts: seq<Task>, t: Task)
    ensures IdsOf(ts + [t]) == IdsOf(ts) + [t.id]
  {
  }

  /** The order and look-up clauses of `Reordered` leave exactly one possible list. */
  lemma ReorderedIsDetermined(ts: seq<Task>, ids: seq<string>, r: seq<Task>)
    requires IdsOf(r) == MatchedIds(ts, ids)
    requires forall k :: 0 <= k < |r| ==> Lookup(ts, r[k].id) == Some(r[k])
    ensures r == Reordered(ts, ids)
  {
    var q := Reordered(ts, ids);
    assert |r| == |IdsOf(r)| == |IdsOf(q)| == |q|;
    forall k | 0 <= k < |r| ensures r[k] == q[k] {
      assert IdsOf(r)[k] == IdsOf(q)[k];
    }
  }

  /** A drop whose on-screen ids are all different leaves unique ids. */
  lemma ReorderDistinctIdsKeepsUniqueIds(ts: seq<Task>, ids: seq<string>)
    requires Distinct(ids)
    ensures UniqueIds(Reordered(ts, ids))
  {
    var r := Reordered(ts, ids);
    FilterKeepsDistinct(ids, (id: string) => HasId(ts, id));
    forall i, j | 0 <= i < j < |r| ensures r[i].id != r[j].id {
      assert r[i].id == IdsOf(r)[i] && r[j].id == IdsOf(r)[j];
    }
  }

  /** When every listed id matches a task, the new list has one task per id. */
  lemma {:induction false} ReorderedLength(ts: seq<Task>, ids: seq<string>)
    requires forall id :: id in ids ==> HasId(ts, id)
    ensures |Reordered(ts, ids)| == |ids|
  {
    if ids != [] {
      assert forall id :: id in ids[..|ids| - 1] ==> id in ids;
      ReorderedLength(ts, ids[..|ids| - 1]);
    }
  }

  /** With unique ids, exactly the tasks whose ids are listed survive. */
  lemma ReorderKeepsExactlyListed(ts: seq<Task>, ids: seq<string>)
    requires UniqueIds(ts)
    ensures forall t :: t in Reordered(ts, ids) <==> t in ts && t.id in ids
  {
  }

  /**
    A drop that lists every task's id once, in any order, keeps every task and
    adds none: the new list is a rearrangement of the old one.
   */
  lemma ReorderOfAllIdsKeepsAll(ts: seq<Task>, ids: seq<string>)
    requires UniqueIds(ts)
    requires multiset(ids) == multiset(IdsOf(ts))
    ensures |Reordered(ts, ids)| == |ts|
    ensures forall t :: t in Reordered(ts, ids) <==> t in ts
    ensures IdsOf(Reordered(ts, ids)) == ids
  {
    assert |ids| == |multiset(ids)| == |multiset(IdsOf(ts))| == |IdsOf(ts)|;
    forall id | id in ids ensures HasId(ts, id) {
      assert id in multiset(IdsOf(ts));
      var j :| 0 <= j < |ts| && IdsOf(ts)[j] == id;
      assert ts[j] in ts;
    }
    ReorderedLength(ts, ids);
    forall t | t in ts ensures t.id in ids {
      var j :| 0 <= j < |ts| && ts[j] == t;
      assert IdsOf(ts)[j] == t.id;
      assert t.id in multiset(IdsOf(ts));
    }
    ReorderKeepsExactlyListed(ts, ids);
    FilterKeepsAll(ids, (id: string) => HasId(ts, id));
  }

  /**
    The page lists only the tasks that pass the current search and status
    filter, so a drop while filtering keeps exactly those and loses the rest.
   */
  lemma ReorderWhileFilteredDropsHidden(ts: seq<Task>, filter: View.StatusFilter, searchTerm: string,
                                        ids: seq<string>)
    requires UniqueIds(ts)
    requires forall id :: id in ids <==> exists v :: v in View.Project(ts, filter, searchTerm) && v.id == id
    ensures forall t :: t in ts ==> (t in Reordered(ts, ids) <==> View.Keep(t, filter, searchTerm))
  {
    ReorderKeepsExactlyListed(ts, ids);
    forall t | t in ts && t.id in ids ensures View.Keep(t, filter, searchTerm) {
      var v :| v in View.Project(ts, filter, searchTerm) && v.id == t.id;
      LookupOwnId(ts, t);
      LookupOwnId(ts, v);
    }
  }

  /**
    Running the handler again on the same on-screen order changes nothing; the
    page registers one more `drop` listener on every render that shows at
    least one task, and each of them
    rebuilds the list in turn.
   */
  lemma ReorderTwiceSameAsOnce(ts: seq<Task>, ids: seq<string>)
    ensures Reordered(Reordered(ts, ids), ids) == Reordered(ts, ids)
  {
    var r := Reordered(ts, ids);
    forall id | id in ids ensures Lookup(r, id) == Lookup(ts, id) {
      LookupAfterReorder(ts, ids, id);
    }
    SameLookupsSameReorder(r, ts, ids);
  }

  lemma LookupAfterReorder(ts: seq<Task>, ids: seq<string>, id: string)
    requires id in ids
    ensures Lookup(Reordered(ts, ids), id) == Lookup(ts, id)
  {
  }

  /** The handler only consults look-ups of listed ids. */
  lemma {:induction false} SameLookupsSameReorder(a: seq<Task>, b: seq<Task>, ids: seq<string>)
    requires forall id :: id in ids ==> Lookup(a, id) == Lookup(b, id)
    ensures Reordered(a, ids) == Reordered(b, ids)
  {
    if ids != [] {
      assert forall id :: id in ids[..|ids| - 1] ==> id in ids;
      SameLookupsSameReorder(a, b, ids[..|ids| - 1]);
      assert ids[|ids| - 1] in ids;
    }
  }
}

=== FILE: ordering.dfy ===
/**
  `sortTasks` (script.js:203-227): the four comparators handed to `tasks.sort`
  and the order that sort produces. `Array.prototype.sort` is stable, so with a
  consistent comparator its result is fixed: sorted by the comparator, and tasks
  the comparator calls equal keep their relative order. `Sorted` is that result,
  written as a stable insertion sort; `StableSortIsUnique` shows that every
  stable sort yields it.
 */
module Ordering {
  import opened Wrappers
  import opened Seqs
  import opened Tasks

  /** The value of the sort selector; anything else is `Unrecognized`. */
  datatype SortOrder = DateAsc | DateDesc | ByPriority | ByDueDate | Unrecognized

  /** `priorityOrder` of script.js:212. */
  function PriorityRank(p: Priority): int
  {
    match p
    case High => 0
    case Medium => 1
    case Low => 2
  }

  /**
    The `duedate` comparator of script.js:218-222 as written: positive means
    `a` goes after `b`. A task without a due date is put after every task,
    including another task without a due date.
   */
  function CompareDueDateAsWritten(a: Task, b: Task): int
  {
    if a.dueDate.None? then 1
    else if b.dueDate.None? then -1
    else a.dueDate.value - b.dueDate.value
  }

  /**
    The as-written `duedate` comparator is not consistent: for two tasks
    without a due date it asks for each to go after the other, and it does not
    even call a task equal to itself.
   */
  lemma DueDateComparatorInconsistent(a: Task, b: Task)
    requires a.dueDate.None? && b.dueDate.None?
    ensures CompareDueDateAsWritten(a, b) > 0 && CompareDueDateAsWritten(b, a) > 0
    ensures CompareDueDateAsWritten(a, a) != 0
  {
  }

  /**
    The comparators of script.js:206-221, with the `duedate` one corrected to
    call two missing due dates equal. Negative means `a` goes first.
   */
  function Compare(order: SortOrder, a: Task, b: Task): (c: int)
    requires order != Unrecognized
    ensures c <= 0 <==> KeyLe(KeyOf(a, order), KeyOf(b, order))
    ensures c == 0 <==> KeyOf(a, order) == KeyOf(b, order)
  {
    match order
    case DateAsc => a.createdAt - b.createdAt
    case DateDesc => b.createdAt - a.createdAt
    case ByPriority => PriorityRank(a.priority) - PriorityRank(b.priority)
    case ByDueDate =>
      if a.dueDate.None? && b.dueDate.None? then 0
      else if a.dueDate.None? then 1
      else if b.dueDate.None? then -1
      else a.dueDate.value - b.dueDate.value
  }

  /**
    The corrected comparators are consistent: swapping the arguments flips the
    sign, and a task is equal to itself.
   */
  lemma CompareIsConsistent(order: SortOrder, a: Task, b: Task)
    requires order != Unrecognized
    ensures Compare(order, b, a) == -Compare(order, a, b)
    ensures Compare(order, a, a) == 0
  {
  }

  /** A sort key: compared by `band` first, then by `value`. */
  datatype Key = Key(band: int, value: int)

  predicate KeyLe(a: Key, b: Key)
  {
    a.band < b.band || (a.band == b.band && a.value <= b.value)
  }

  /** The key each comparator sorts by: tasks without a due date form a later band. */
  function KeyOf(t: Task, order: SortOrder): Key
  {
    match order
    case DateAsc => Key(0, t.createdAt)
    case DateDesc => Key(0, -t.createdAt)
    case ByPriority => Key(0, PriorityRank(t.priority))
    case ByDueDate =>
      (match t.dueDate
       case Some(d) => Key(0, d)
       case None => Key(1, 0))
    case Unrecognized => Key(0, 0)
  }

  /** Every pair of tasks appears in key order. */
  predicate Ordered(s: seq<Task>, order: SortOrder)
  {
    forall i, j :: 0 <= i < j < |s| ==> KeyLe(KeyOf(s[i], order), KeyOf(s[j], order))
  }

  /** The tasks of `s` whose key is `k`, in their order in `s`. */
  function KeyClass(s: seq<Task>, order: SortOrder, k: Key): seq<Task>
  {
    Filter(s, (t: Task) => KeyOf(t, order) == k)
  }

  /** Tasks with equal keys keep their relative order. */
  ghost predicate StableWrt(r: seq<Task>, s: seq<Task>, order: SortOrder)
  {
    forall k :: KeyClass(r, order, k) == KeyClass(s, order, k)
  }

  /** Puts `x` after every element whose key is not greater than its own. */
  function Insert(s: seq<Task>, x: Task, order: SortOrder): (r: seq<Task>)
    ensures |r| == |s| + 1
  {
    if s == [] || KeyLe(KeyOf(s[|s| - 1], order), KeyOf(x, order)) then s + [x]
    else Insert(s[..|s| - 1], x, order) + [s[|s| - 1]]
  }

  function InsertionSort(s: seq<Task>, order: SortOrder): (r: seq<Task>)
    ensures |r| == |s|
  {
    if s == [] then []
    else Insert(InsertionSort(s[..|s| - 1], order), s[|s| - 1], order)
  }

  /** The list after `sortTasks(order)`: an unrecognised key sorts nothing. */
  function Sorted(ts: seq<Task>, order: SortOrder): seq<Task>
  {
    if order == Unrecognized then ts else InsertionSort(ts, order)
  }

  lemma {:induction false} InsertPermutes(s: seq<Task>, x: Task, order: SortOrder)
    ensures multiset(Insert(s, x, order)) == multiset(s) + multiset{x}
  {
    if s != [] && !KeyLe(KeyOf(s[|s| - 1], order), KeyOf(x, order)) {
      InsertPermutes(s[..|s| - 1], x, order);
      assert s == s[..|s| - 1] + [s[|s| - 1]];
    }
  }

  lemma {:induction false} InsertOrdered(s: seq<Task>, x: Task, order: SortOrder)
    requires Ordered(s, order)
    ensures Ordered(Insert(s, x, order), order)
  {
    if s != [] && !KeyLe(KeyOf(s[|s| - 1], order), KeyOf(x, order)) {
      var init, last := s[..|s| - 1], s[|s| - 1];
      InsertOrdered(init, x, order);
      InsertPermutes(init, x, order);
      var r' := Insert(init, x, order);
      var r := r' + [last];
      forall i | 0 <= i < |r'| ensures KeyLe(KeyOf(r'[i], order), KeyOf(last, order)) {
        assert r'[i] in multiset(r');
        if r'[i] != x {
          assert r'[i] in multiset(init);
          var j :| 0 <= j < |init| && init[j] == r'[i];
          assert s[j] == init[j];
        }
      }
      forall i, j | 0 <= i < j < |r| ensures KeyLe(KeyOf(r[i], order), KeyOf(r[j], order)) {
        if j < |r'| {
          assert r[i] == r'[i] && r[j] == r'[j];
        } else {
          assert r[i] == r'[i] && r[j] == last;
        }
      }
    }
  }

  lemma {:induction false} InsertStable(s: seq<Task>, x: Task, order: SortOrder, k: Key)
    ensures KeyClass(Insert(s, x, order), order, k)
         == KeyClass(s, order, k) + KeyClass([x], order, k)
  {
    var p := (t: Task) => KeyOf(t, order) == k;
    if s == [] || KeyLe(KeyOf(s[|s| - 1], order), KeyOf(x, order)) {
      FilterConcat(s, [x], p);
    } else {
      var init, last := s[..|s| - 1], s[|s| - 1];
      InsertStable(init, x, order, k);
      FilterConcat(Insert(init, x, order), [last], p);
      assert s == init + [last];
      FilterConcat(init, [last], p);
      assert KeyClass([x], order, k) == [] || KeyClass([last], order, k) == [];
    }
  }

  lemma {:induction false} InsertionSortPermutes(s: seq<Task>, order: SortOrder)
    ensures multiset(InsertionSort(s, order)) == multiset(s)
  {
    if s != [] {
      var init := s[..|s| - 1];
      InsertionSortPermutes(init, order);
      InsertPermutes(InsertionSort(init, order), s[|s| - 1], order);
      assert s == init + [s[|s| - 1]];
    }
  }

  lemma {:induction false} InsertionSortOrdered(s: seq<Task>, order: SortOrder)
    ensures Ordered(InsertionSort(s, order), order)
  {
    if s != [] {
      InsertionSortOrdered(s[..|s| - 1], order);
      InsertOrdered(InsertionSort(s[..|s| - 1], order), s[|s| - 1], order);
    }
  }

  lemma {:induction false} InsertionSortStable(s: seq<Task>, order: SortOrder)
    ensures StableWrt(InsertionSort(s, order), s, order)
  {
    if s != [] {
      var init, last := s[..|s| - 1], s[|s| - 1];
      InsertionSortStable(init, order);
      forall k ensures KeyClass(InsertionSort(s, order), order, k) == KeyClass(s, order, k) {
        InsertStable(InsertionSort(init, order), last, order, k);
        assert s == init + [last];
        FilterConcat(init, [last], (t: Task) => KeyOf(t, order) == k);
      }
    }
  }

  /** `sortTasks` rearranges the list and loses or duplicates nothing. */
  lemma SortPermutes(ts: seq<Task>, order: SortOrder)
    ensures multiset(Sorted(ts, order)) == multiset(ts)
  {
    if order != Unrecognized {
      InsertionSortPermutes(ts, order);
    }
  }

  /** Sorting a list with unique ids leaves unique ids: nothing is duplicated. */
  lemma SortKeepsUniqueIds(ts: seq<Task>, order: SortOrder)
    requires UniqueIds(ts)
    ensures UniqueIds(Sorted(ts, order))
  {
    SortPermutes(ts, order);
    SubMultisetKeepsUniqueIds(Sorted(ts, order), ts);
  }

  /** The sorted list is in key order and tasks with equal keys keep their relative order. */
  lemma SortOrderedAndStable(ts: seq<Task>, order: SortOrder)
    requires order != Unrecognized
    ensures Ordered(Sorted(ts, order), order)
    ensures StableWrt(Sorted(ts, order), ts, order)
  {
    InsertionSortOrdered(ts, order);
    InsertionSortStable(ts, order);
  }

  /** script.js:224: an unrecognised sort key leaves the order as it was. */
  lemma SortUnrecognizedKeepsOrder(ts: seq<Task>)
    ensures Sorted(ts, Unrecognized) == ts
  {
  }

  /** The first element of a key-ordered list has the least key. */
  lemma OrderedHeadIsLeast(s: seq<Task>, order: SortOrder, y: Task)
    requires Ordered(s, order) && s != [] && y in s
    ensures KeyLe(KeyOf(s[0], order), KeyOf(y, order))
  {
  }

  /** A task of key `k` belongs to the key class `k`. */
  lemma InKeyClass(s: seq<Task>, order: SortOrder, y: Task)
    requires y in s
    ensures y in KeyClass(s, order, KeyOf(y, order))
  {
    var p := (t: Task) => KeyOf(t, order) == KeyOf(y, order);
    FilterMembership(s, p);
    var j :| 0 <= j < |s| && s[j] == y;
    assert p(s[j]);
  }

  /** A member of the key class `k` has key `k` and is in `s`. */
  lemma FromKeyClass(s: seq<Task>, order: SortOrder, k: Key, y: Task)
    requires y in KeyClass(s, order, k)
    ensures y in s && KeyOf(y, order) == k
  {
    var p := (t: Task) => KeyOf(t, order) == k;
    FilterMembership(s, p);
    var j :| 0 <= j < |KeyClass(s, order, k)| && KeyClass(s, order, k)[j] == y;
  }

  /**
    Two key-ordered lists whose key classes agree are equal: being sorted and
    stable determines the result of a sort.
   */
  lemma {:induction false} OrderedWithSameClassesAreEqual(a: seq<Task>, b: seq<Task>, order: SortOrder)
    requires Ordered(a, order) && Ordered(b, order)
    requires StableWrt(a, b, order)
    ensures a == b
    decreases |a|
  {
    if a == [] || b == [] {
      if a != [] {
        InKeyClass(a, order, a[0]);
        assert false;
      } else if b != [] {
        InKeyClass(b, order, b[0]);
        assert false;
      }
    } else {
      var ka, kb := KeyOf(a[0], order), KeyOf(b[0], order);
      InKeyClass(a, order, a[0]);
      FromKeyClass(b, order, ka, a[0]);
      OrderedHeadIsLeast(b, order, a[0]);
      InKeyClass(b, order, b[0]);
      FromKeyClass(a, order, kb, b[0]);
      OrderedHeadIsLeast(a, order, b[0]);
      assert ka == kb;
      assert KeyClass(a, order, ka)[0] == a[0];
      assert KeyClass(b, order, ka)[0] == b[0];
      forall k ensures KeyClass(a[1..], order, k) == KeyClass(b[1..], order, k) {
        assert KeyClass(a, order, k) == KeyClass(b, order, k);
        if k == ka {
          assert KeyClass(a[1..], order, k) == KeyClass(a, order, k)[1..];
          assert KeyClass(b[1..], order, k) == KeyClass(b, order, k)[1..];
        } else {
          assert KeyClass(a[1..], order, k) == KeyClass(a, order, k);
          assert KeyClass(b[1..], order, k) == KeyClass(b, order, k);
        }
      }
      OrderedWithSameClassesAreEqual(a[1..], b[1..], order);
      assert a == [a[0]] + a[1..] && b == [b[0]] + b[1..];
    }
  }

  /**
    Any list that is in key order and keeps equal-key tasks in their input
    order is `Sorted`: a stable sort with these comparators yields exactly it.
   */
  lemma StableSortIsUnique(ts: seq<Task>, order: SortOrder, r: seq<Task>)
    requires order != Unrecognized
    requires Ordered(r, order) && StableWrt(r, ts, order)
    ensures r == Sorted(ts, order)
  {
    SortOrderedAndStable(ts, order);
    OrderedWithSameClassesAreEqual(r, Sorted(ts, order), order);
  }

  /** `priority`: every high task before every medium one, every medium before every low. */
  lemma SortByPriorityGroups(ts: seq<Task>)
    ensures forall i, j :: 0 <= i < j < |Sorted(ts, ByPriority)| ==>
      PriorityRank(Sorted(ts, ByPriority)[i].priority) <= PriorityRank(Sorted(ts, ByPriority)[j].priority)
  {
    SortOrderedAndStable(ts, ByPriority);
  }

  /** `duedate`: tasks with a due date come first, by date; tasks without one come last. */
  lemma SortByDueDateMissingLast(ts: seq<Task>)
    ensures forall i, j ::
      (0 <= i < j < |Sorted(ts, ByDueDate)| && Sorted(ts, ByDueDate)[i].dueDate.None?) ==>
      Sorted(ts, ByDueDate)[j].dueDate.None?
    ensures forall i, j ::
      (0 <= i < j < |Sorted(ts, ByDueDate)| &&
       Sorted(ts, ByDueDate)[i].dueDate.Some? && Sorted(ts, ByDueDate)[j].dueDate.Some?) ==>
      Sorted(ts, ByDueDate)[i].dueDate.value <= Sorted(ts, ByDueDate)[j].dueDate.value
  {
    SortOrderedAndStable(ts, ByDueDate);
  }

  /** `date-asc`: creation times never decrease along the list. */
  lemma SortByDateAscending(ts: seq<Task>)
    ensures forall i, j :: 0 <= i < j < |Sorted(ts, DateAsc)| ==>
      Sorted(ts, DateAsc)[i].createdAt <= Sorted(ts, DateAsc)[j].createdAt
  {
    SortOrderedAndStable(ts, DateAsc);
  }

  /** `date-desc`: creation times never increase along the list. */
  lemma SortByDateDescending(ts: seq<Task>)
    ensures forall i, j :: 0 <= i < j < |Sorted(ts, DateDesc)| ==>
      Sorted(ts, DateDesc)[i].createdAt >= Sorted(ts, DateDesc)[j].createdAt
  {
    SortOrderedAndStable(ts, DateDesc);
  }
}

=== FILE: seqs.dfy ===
/**
  Order-preserving selection from a sequence: the `Array.prototype.filter`
  that the task list uses for deletion, the view and the statistics.
 */
module Seqs {

  /** The elements of `s` that satisfy `p`, in their original order. */
  function Filter<T>(s: seq<T>, p: T -> bool): (r: seq<T>)
    ensures |r| <= |s|
  {
    if s == [] then []
    else (if p(s[0]) then [s[0]] else []) + Filter(s[1..], p)
  }

  /** What `Filter` keeps: exactly the elements of `s` that satisfy `p`. */
  lemma {:induction false} FilterMembership<T>(s: seq<T>, p: T -> bool)
    ensures forall i :: 0 <= i < |Filter(s, p)| ==> Filter(s, p)[i] in s && p(Filter(s, p)[i])
    ensures forall i :: 0 <= i < |s| && p(s[i]) ==> s[i] in Filter(s, p)
  {
    if s != [] {
      FilterMembership(s[1..], p);
      assert s == [s[0]] + s[1..];
      var r, t := Filter(s, p), Filter(s[1..], p);
      forall i | 0 <= i < |r| ensures r[i] in s && p(r[i]) {
        if !p(s[0]) {
          assert r[i] == t[i];
        } else if i > 0 {
          assert r[i] == t[i - 1];
        }
      }
      forall i | 0 <= i < |s| && p(s[i]) ensures s[i] in r {
        if i > 0 {
          assert s[i] == s[1..][i - 1];
        }
      }
    }
  }

  /** `Filter` keeps every copy of an element that satisfies `p`, and no copy of any other. */
  lemma {:induction false} FilterCount<T>(s: seq<T>, p: T -> bool)
    ensures forall x :: multiset(Filter(s, p))[x] == if p(x) then multiset(s)[x] else 0
  {
    if s != [] {
      FilterCount(s[1..], p);
      assert s == [s[0]] + s[1..];
      assert Filter(s, p) == (if p(s[0]) then [s[0]] else []) + Filter(s[1..], p);
    }
  }

  /** No two positions of `s` hold the same element. */
  predicate Distinct<T(==)>(s: seq<T>)
  {
    forall i, j :: 0 <= i < j < |s| ==> s[i] != s[j]
  }

  /** A sequence in which nothing occurs twice has no repeated element. */
  lemma {:induction false} AtMostOnceIsDistinct<T>(s: seq<T>)
    requires forall x :: multiset(s)[x] <= 1
    ensures Distinct(s)
  {
    if s != [] {
      assert s == [s[0]] + s[1..];
      assert multiset(s) == multiset([s[0]]) + multiset(s[1..]);
      assert multiset(s)[s[0]] <= 1;
      assert s[0] !in s[1..];
      forall x ensures multiset(s[1..])[x] <= 1 {
        assert multiset(s)[x] <= 1;
      }
      AtMostOnceIsDistinct(s[1..]);
      forall i, j | 0 <= i < j < |s| ensures s[i] != s[j] {
        assert s[j] == s[1..][j - 1];
        if i > 0 {
          assert s[i] == s[1..][i - 1];
        }
      }
    }
  }

  /** Selecting from a sequence without repeats gives a sequence without repeats. */
  lemma {:induction false} FilterKeepsDistinct<T>(s: seq<T>, p: T -> bool)
    requires Distinct(s)
    ensures Distinct(Filter(s, p))
  {
    if s != [] {
      assert Distinct(s[1..]) by {
        forall i, j | 0 <= i < j < |s| - 1 ensures s[1..][i] != s[1..][j] {
          assert s[1..][i] == s[i + 1] && s[1..][j] == s[j + 1];
        }
      }
      FilterKeepsDistinct(s[1..], p);
      FilterMembership(s[1..], p);
      var t := Filter(s[1..], p);
      if p(s[0]) {
        assert s[0] !in s[1..] by {
          forall k | 0 <= k < |s| - 1 ensures s[1..][k] != s[0] {
            assert s[1..][k] == s[k + 1];
          }
        }
        var r := Filter(s, p);
        assert r == [s[0]] + t;
        forall i, j | 0 <= i < j < |r| ensures r[i] != r[j] {
          assert r[j] == t[j - 1];
          if i > 0 {
            assert r[i] == t[i - 1];
          }
        }
      } else {
        assert Filter(s, p) == t;
      }
    }
  }

  /** `a` is obtained from `b` by deleting elements, without reordering the rest. */
  predicate IsSubsequence<T(==)>(a: seq<T>, b: seq<T>)
    decreases |b|
  {
    a == [] ||
    (b != [] && ((a[0] == b[0] && IsSubsequence(a[1..], b[1..])) || IsSubsequence(a, b[1..])))
  }

  lemma {:induction false} FilterIsSubsequence<T>(s: seq<T>, p: T -> bool)
    ensures IsSubsequence(Filter(s, p), s)
  {
    if s != [] {
      FilterIsSubsequence(s[1..], p);
      var r := Filter(s, p);
      if p(s[0]) {
        assert r[0] == s[0] && r[1..] == Filter(s[1..], p);
      } else {
        assert r == Filter(s[1..], p);
      }
    }
  }

  lemma {:induction false} FilterConcat<T>(a: seq<T>, b: seq<T>, p: T -> bool)
    ensures Filter(a + b, p) == Filter(a, p) + Filter(b, p)
  {
    if a == [] {
      assert a + b == b;
    } else {
      var head := if p(a[0]) then [a[0]] else [];
      FilterConcat(a[1..], b, p);
      assert a + b != [] && (a + b)[0] == a[0] && (a + b)[1..] == a[1..] + b;
      assert Filter(a + b, p) == head + Filter(a[1..] + b, p);
      assert Filter(a, p) == head + Filter(a[1..], p);
    }
  }

  /** Filtering with a predicate every element satisfies changes nothing. */
  lemma {:induction false} FilterKeepsAll<T>(s: seq<T>, p: T -> bool)
    requires forall i :: 0 <= i < |s| ==> p(s[i])
    ensures Filter(s, p) == s
  {
    if s != [] {
      FilterKeepsAll(s[1..], p);
    }
  }

  /** Two predicates that agree on the elements of `s` select the same elements. */
  lemma {:induction false} FilterExtensional<T>(s: seq<T>, p: T -> bool, q: T -> bool)
    requires forall i :: 0 <= i < |s| ==> p(s[i]) == q(s[i])
    ensures Filter(s, p) == Filter(s, q)
  {
    if s != [] {
      FilterExtensional(s[1..], p, q);
    }
  }

  /** A predicate and its negation split `s` between them. */
  lemma {:induction false} FilterPartition<T>(s: seq<T>, p: T -> bool, q: T -> bool)
    requires forall i :: 0 <= i < |s| ==> q(s[i]) == !p(s[i])
    ensures |Filter(s, p)| + |Filter(s, q)| == |s|
  {
    if s != [] {
      FilterPartition(s[1..], p, q);
    }
  }

  /** Only elements that satisfy `p` survive, so a second pass removes nothing. */
  lemma {:induction false} FilterIdempotent<T>(s: seq<T>, p: T -> bool)
    ensures Filter(Filter(s, p), p) == Filter(s, p)
  {
    FilterMembership(s, p);
    FilterKeepsAll(Filter(s, p), p);
  }
}

=== FILE: store.dfy ===
/**
  The task list of script.js as an object: the global `tasks` array (line 3)
  and the storage slot `saveTasksToStorage` writes (lines 8-16), with one
  method per event handler that changes them.
 */
module Store {
  import opened Wrappers
  import opened Seqs
  import opened Text
  import opened Tasks
  import Ordering
  import DragDrop

  /** What `JSON.parse` made of an imported file. */
  datatype ParsedImport = ParseError | NotAnArray | AnArray(items: seq<Task>)

  /** The three alerts an import ends with. */
  datatype ImportOutcome = Imported | InvalidFormat | ImportFailed

  class TaskStore {
    /** The list in memory, in display order. */
    var tasks: seq<Task>
    /** The storage slot: `None` while it holds nothing readable. */
    var slot: Option<seq<Task>>

    /**
      `loadTasksFromStorage` (script.js:18-32): an absent or unreadable slot
      starts an empty list.
     */
    constructor Load(stored: Option<seq<Task>>)
      ensures tasks == (if stored.Some? then stored.value else [])
      ensures slot == stored
    {
      tasks := if stored.Some? then stored.value else [];
      slot := stored;
    }

    /** `saveTasksToStorage` (script.js:8-16): the slot now holds the list. */
    method Save()
      modifies this`slot
      ensures slot == Some(tasks)
    {
      slot := Some(tasks);
    }

    /**
      `addTask` (script.js:93-114): white-space-only text is refused and
      nothing changes; otherwise the new task, with trimmed text and not
      completed, goes in front of the old list and the list is saved.
      `freshId` and `now` stand for `generateId()` and `new Date()`.
     */
    method Add(text: string, category: string, priority: Priority, dueDate: Option<int>,
               freshId: string, now: int) returns (added: bool)
      requires !HasId(tasks, freshId)
      modifies this
      ensures added <==> !AllSpace(text)
      ensures added ==> |tasks| == |old(tasks)| + 1 && tasks[1..] == old(tasks)
      ensures added ==> tasks[0] == Task(freshId, Trim(text), category, priority, dueDate, false, now)
      ensures added ==> tasks[0].text != [] && slot == Some(tasks)
      ensures !added ==> tasks == old(tasks) && slot == old(slot)
      ensures UniqueIds(old(tasks)) ==> UniqueIds(tasks)
    {
      var trimmed := Trim(text);
      if trimmed == [] {
        return false;
      }
      var task := Task(freshId, trimmed, category, priority, dueDate, false, now);
      tasks := [task] + tasks;
      Save();
      added := true;
      assert tasks[1..] == old(tasks);
      assert forall j :: 0 < j < |tasks| ==> tasks[j] in old(tasks);
    }

    /**
      `toggleTask` (script.js:127-135): the first task with the id flips its
      `completed` flag and the list is saved; an unknown id changes nothing.
     */
    method Toggle(id: string)
      modifies this
      ensures tasks == Toggled(old(tasks), id)
      ensures slot == if HasId(old(tasks), id) then Some(tasks) else old(slot)
      ensures UniqueIds(old(tasks)) ==> UniqueIds(tasks)
    {
      match FindFirst(tasks, id)
      case None =>
      case Some(i) =>
        tasks := tasks[i := tasks[i].(completed := !tasks[i].completed)];
        Save();
    }

    /**
      `deleteTask` (script.js:137-144): once confirmed, every task with the id
      is removed and the list is saved, matched or not; unconfirmed, nothing
      changes. `confirmed` is the answer to the `confirm` dialog.
     */
    method Delete(id: string, confirmed: bool)
      modifies this
      ensures confirmed ==> tasks == Deleted(old(tasks), id) && slot == Some(tasks)
      ensures !confirmed ==> tasks == old(tasks) && slot == old(slot)
      ensures UniqueIds(old(tasks)) ==> UniqueIds(tasks)
    {
      if confirmed {
        if UniqueIds(tasks) {
          DeleteKeepsUniqueIds(tasks, id);
        }
        tasks := Deleted(tasks, id);
        Save();
      }
    }

    /**
      `updateTask` (script.js:158-171) with the edit dialog's values: the first
      task with the id takes the new text, category, priority and due date and
      the list is saved; an unknown id changes nothing. The text is not
      checked for being empty.
     */
    method Update(id: string, text: string, category: string, priority: Priority, dueDate: Option<int>)
      modifies this
      ensures tasks == Updated(old(tasks), id, text, category, priority, dueDate)
      ensures slot == if HasId(old(tasks), id) then Some(tasks) else old(slot)
      ensures UniqueIds(old(tasks)) ==> UniqueIds(tasks)
    {
      match FindFirst(tasks, id)
      case None =>
      case Some(i) =>
        tasks := tasks[i := tasks[i].(text := text, category := category, priority := priority, dueDate := dueDate)];
        Save();
    }

    /**
      `sortTasks` (script.js:203-227): the list is put in the order the
      selected comparator gives, stably, and saved, whatever the key.
     */
    method Sort(order: Ordering.SortOrder)
      modifies this
      ensures tasks == Ordering.Sorted(old(tasks), order)
      ensures multiset(tasks) == multiset(old(tasks))
      ensures slot == Some(tasks)
      ensures UniqueIds(old(tasks)) ==> UniqueIds(tasks)
    {
      Ordering.SortPermutes(tasks, order);
      if UniqueIds(tasks) {
        Ordering.SortKeepsUniqueIds(tasks, order);
      }
      tasks := Ordering.Sorted(tasks, order);
      Save();
    }

    /**
      The `drop` handler (script.js:367-379): for each id in on-screen order,
      the first task with that id is appended to a new list, which replaces
      the old one. The handler does not save.
     */
    method Reorder(order: seq<string>)
      modifies this
      ensures tasks == DragDrop.Reordered(old(tasks), order)
      ensures |tasks| <= |order|
      ensures slot == old(slot)
      ensures Distinct(order) ==> UniqueIds(tasks)
    {
      if Distinct(order) {
        DragDrop.ReorderDistinctIdsKeepsUniqueIds(tasks, order);
      }
      var newOrder: seq<Task> := [];
      for i := 0 to |order|
        invariant newOrder == DragDrop.Reordered(tasks, order[..i])
      {
        assert order[..i + 1][..i] == order[..i];
        match Lookup(tasks, order[i])
        case Some(t) =>
          newOrder := newOrder + [t];
        case None =>
      }
      assert order[..|order|] == order;
      tasks := newOrder;
    }

    /**
      `importTasksFromJSON` (script.js:45-64) once the file is parsed: an array
      replaces the list as it is and is saved; anything else leaves the list
      and the slot alone.
     */
    method Import(parsed: ParsedImport) returns (outcome: ImportOutcome)
      modifies this
      ensures parsed.AnArray? ==> outcome == Imported && tasks == parsed.items && slot == Some(parsed.items)
      ensures parsed.NotAnArray? ==> outcome == InvalidFormat && tasks == old(tasks) && slot == old(slot)
      ensures parsed.ParseError? ==> outcome == ImportFailed && tasks == old(tasks) && slot == old(slot)
    {
      match parsed
      case AnArray(items) =>
        tasks := items;
        Save();
        outcome := Imported;
      case NotAnArray =>
        outcome := InvalidFormat;
      case ParseError =>
        outcome := ImportFailed;
    }
  }

  /**
    Saving and loading again gives back the same list, in the same order: a
    store loaded from the slot another store wrote starts with that store's list.
   */
  method SaveThenLoadRoundTrip(s: TaskStore) returns (loaded: TaskStore)
    modifies s
    ensures fresh(loaded) && loaded.tasks == s.tasks == old(s.tasks)
  {
    s.Save();
    loaded := new TaskStore.Load(s.slot);
  }
}

=== FILE: tasks.dfy ===
/**
  The task record and the list operations that locate a task by id and
  change it: `toggleTask`, `updateTask` and `deleteTask` in script.js.
  Every look-up is `Array.prototype.find`, which stops at the FIRST task
  with the id; deletion is a `filter`, which removes every task with it.
 */
module Tasks {
  import opened Wrappers
  import opened Seqs

  datatype Priority = High | Medium | Low

  /**
    One to-do item. `dueDate` is a day number, `None` for the empty date
    input; `createdAt` is the creation instant as a number.
   */
  datatype Task = Task(
    id: string,
    text: string,
    category: string,
    priority: Priority,
    dueDate: Option<int>,
    completed: bool,
    createdAt: int)

  function IdsOf(ts: seq<Task>): seq<string>
  {
    seq(|ts|, i requires 0 <= i < |ts| => ts[i].id)
  }

  predicate HasId(ts: seq<Task>, id: string)
  {
    exists t :: t in ts && t.id == id
  }

  /** No two tasks share an id. */
  predicate UniqueIds(ts: seq<Task>)
  {
    forall i, j :: 0 <= i < j < |ts| ==> ts[i].id != ts[j].id
  }

  /** Index `j` holds the first task of `ts` whose id is `id`. */
  predicate IsFirstWithId(ts: seq<Task>, j: int, id: string)
  {
    0 <= j < |ts| && ts[j].id == id && forall k :: 0 <= k < j ==> ts[k].id != id
  }

  /** The position `tasks.find((t) => t.id === id)` stops at. */
  function FindFirst(ts: seq<Task>, id: string): (r: Option<nat>)
    ensures r.Some? ==> IsFirstWithId(ts, r.value, id)
    ensures r.None? ==> forall k :: 0 <= k < |ts| ==> ts[k].id != id
  {
    if ts == [] then None
    else if ts[0].id == id then Some(0)
    else match FindFirst(ts[1..], id)
      case None => None
      case Some(k) => Some(k + 1)
  }

  /** The task `tasks.find((t) => t.id === id)` returns. */
  function Lookup(ts: seq<Task>, id: string): (r: Option<Task>)
    ensures r.Some? ==> r.value in ts && r.value.id == id
    ensures r.Some? ==> exists j :: IsFirstWithId(ts, j, id) && r.value == ts[j]
    ensures r.None? <==> !HasId(ts, id)
  {
    match FindFirst(ts, id)
    case None => None
    case Some(i) => Some(ts[i])
  }

  /** With unique ids, the look-up of a task's own id finds that task. */
  lemma LookupOwnId(ts: seq<Task>, t: Task)
    requires UniqueIds(ts) && t in ts
    ensures Lookup(ts, t.id) == Some(t)
  {
  }

  /** script.js:127-130: the first task with the id has its `completed` flag flipped. */
  function Toggled(ts: seq<Task>, id: string): (r: seq<Task>)
    ensures |r| == |ts|
    ensures forall j :: 0 <= j < |ts| ==> r[j].(completed := ts[j].completed) == ts[j]
    ensures forall j :: 0 <= j < |ts| ==> (r[j].completed != ts[j].completed <==> IsFirstWithId(ts, j, id))
  {
    match FindFirst(ts, id)
    case None => ts
    case Some(i) => ts[i := ts[i].(completed := !ts[i].completed)]
  }

  /** Toggling the same id twice restores the list. */
  lemma ToggleTwiceRestores(ts: seq<Task>, id: string)
    ensures Toggled(Toggled(ts, id), id) == ts
  {
  }

  /** script.js:129: an id no task has leaves the list unchanged. */
  lemma ToggleUnknownIdIsNoOp(ts: seq<Task>, id: string)
    requires !HasId(ts, id)
    ensures Toggled(ts, id) == ts
  {
  }

  /**
    script.js:158-164: the first task with the id gets the new text, category,
    priority and due date; its id, completion and creation time stay.
   */
  function Updated(ts: seq<Task>, id: string, text: string, category: string,
                   priority: Priority, dueDate: Option<int>): (r: seq<Task>)
    ensures |r| == |ts|
    ensures forall j :: 0 <= j < |ts| ==>
      r[j].id == ts[j].id && r[j].completed == ts[j].completed && r[j].createdAt == ts[j].createdAt
    ensures forall j :: 0 <= j < |ts| ==>
      if IsFirstWithId(ts, j, id)
      then r[j].text == text && r[j].category == category && r[j].priority == priority && r[j].dueDate == dueDate
      else r[j] == ts[j]
  {
    match FindFirst(ts, id)
    case None => ts
    case Some(i) => ts[i := ts[i].(text := text, category := category, priority := priority, dueDate := dueDate)]
  }

  /** Saving the same edit twice has the effect of saving it once. */
  lemma UpdateTwiceSameAsOnce(ts: seq<Task>, id: string, text: string, category: string,
                              priority: Priority, dueDate: Option<int>)
    ensures Updated(Updated(ts, id, text, category, priority, dueDate), id, text, category, priority, dueDate)
         == Updated(ts, id, text, category, priority, dueDate)
  {
  }

  /** script.js:139: every task whose id differs, in the original order. */
  function Deleted(ts: seq<Task>, id: string): (r: seq<Task>)
    ensures IsSubsequence(r, ts)
    ensures forall t :: t in r <==> t in ts && t.id != id
    ensures forall t :: multiset(r)[t] == if t.id != id then multiset(ts)[t] else 0
  {
    var keep := (t: Task) => t.id != id;
    FilterIsSubsequence(ts, keep);
    FilterMembership(ts, keep);
    FilterCount(ts, keep);
    Filter(ts, keep)
  }

  /** A second delete of the same id removes nothing more. */
  lemma DeleteTwiceSameAsOnce(ts: seq<Task>, id: string)
    ensures Deleted(Deleted(ts, id), id) == Deleted(ts, id)
  {
    FilterIdempotent(ts, (t: Task) => t.id != id);
  }

  /** Deleting the id of a task just put in front, with an id new to the list, gives the old list back. */
  lemma DeleteUndoesAdd(ts: seq<Task>, t: Task)
    requires !HasId(ts, t.id)
    ensures Deleted([t] + ts, t.id) == ts
  {
    var keep := (u: Task) => u.id != t.id;
    assert ([t] + ts)[1..] == ts;
    FilterKeepsAll(ts, keep);
  }

  /** With unique ids, deleting an id that is present removes exactly one task. */
  lemma {:induction false} DeleteRemovesOne(ts: seq<Task>, id: string)
    requires UniqueIds(ts) && HasId(ts, id)
    ensures |Deleted(ts, id)| == |ts| - 1
  {
    var keep := (t: Task) => t.id != id;
    assert ts != [];
    if ts[0].id == id {
      FilterKeepsAll(ts[1..], keep);
    } else {
      var t :| t in ts && t.id == id;
      assert t in ts[1..];
      DeleteRemovesOne(ts[1..], id);
    }
  }

  /** With unique ids, no task occurs twice in the list. */
  lemma {:induction false} UniqueIdsOccurOnce(ts: seq<Task>, t: Task)
    requires UniqueIds(ts)
    ensures multiset(ts)[t] <= 1
  {
    if ts != [] {
      assert ts == [ts[0]] + ts[1..];
      assert UniqueIds(ts[1..]) by {
        forall i, j | 0 <= i < j < |ts| - 1 ensures ts[1..][i].id != ts[1..][j].id {
          assert ts[1..][i] == ts[i + 1] && ts[1..][j] == ts[j + 1];
        }
      }
      UniqueIdsOccurOnce(ts[1..], t);
      assert ts[0] !in ts[1..] by {
        forall k | 0 <= k < |ts| - 1 ensures ts[1..][k].id != ts[0].id {
          assert ts[1..][k] == ts[k + 1];
        }
      }
    }
  }

  /**
    Ids stay unique in any list made of tasks of a unique-id list, each used
    at most as often as it occurs there: a deletion, a permutation.
   */
  lemma SubMultisetKeepsUniqueIds(a: seq<Task>, b: seq<Task>)
    requires UniqueIds(b) && multiset(a) <= multiset(b)
    ensures UniqueIds(a)
  {
    forall t ensures multiset(a)[t] <= 1 {
      UniqueIdsOccurOnce(b, t);
    }
    AtMostOnceIsDistinct(a);
    forall i, j | 0 <= i < j < |a| ensures a[i].id != a[j].id {
      assert a[i] in multiset(b) && a[j] in multiset(b);
      var p :| 0 <= p < |b| && b[p] == a[i];
      var q :| 0 <= q < |b| && b[q] == a[j];
      assert p != q;
    }
  }

  /** Toggling keeps every id in place, so unique ids stay unique. */
  lemma ToggleKeepsUniqueIds(ts: seq<Task>, id: string)
    requires UniqueIds(ts)
    ensures IdsOf(Toggled(ts, id)) == IdsOf(ts) && UniqueIds(Toggled(ts, id))
  {
  }

  /** Editing keeps every id in place, so unique ids stay unique. */
  lemma UpdateKeepsUniqueIds(ts: seq<Task>, id: string, text: string, category: string,
                             priority: Priority, dueDate: Option<int>)
    requires UniqueIds(ts)
    ensures IdsOf(Updated(ts, id, text, category, priority, dueDate)) == IdsOf(ts)
    ensures UniqueIds(Updated(ts, id, text, category, priority, dueDate))
  {
  }

  /** Deleting from a list with unique ids leaves unique ids. */
  lemma DeleteKeepsUniqueIds(ts: seq<Task>, id: string)
    requires UniqueIds(ts)
    ensures UniqueIds(Deleted(ts, id))
  {
    SubMultisetKeepsUniqueIds(Deleted(ts, id), ts);
  }
}

=== FILE: text.dfy ===
/**
  The three string operations the task list relies on: `String.prototype.trim`,
  `toLowerCase` (restricted to ASCII letters) and `includes`.
 */
module Text {

  /** The WhiteSpace and LineTerminator code points of ECMAScript, which `trim` removes. */
  predicate IsSpace(c: char)
  {
    c == '\t' || c == '\n' || c == '\U{B}' || c == '\U{C}' || c == '\r' || c == ' ' ||
    c == '\U{A0}' || c == '\U{1680}' || ('\U{2000}' <= c <= '\U{200A}') ||
    c == '\U{2028}' || c == '\U{2029}' || c == '\U{202F}' || c == '\U{205F}' ||
    c == '\U{3000}' || c == '\U{FEFF}'
  }

  predicate AllSpace(s: string)
  {
    forall i :: 0 <= i < |s| ==> IsSpace(s[i])
  }

  /** How many white-space characters `s` starts with. */
  function LeadingSpaces(s: string): (n: nat)
    ensures n <= |s|
    ensures forall i :: 0 <= i < n ==> IsSpace(s[i])
    ensures n < |s| ==> !IsSpace(s[n])
  {
    if s != [] && IsSpace(s[0]) then
      var n := LeadingSpaces(s[1..]);
      assert forall i :: 1 <= i <= n ==> s[i] == s[1..][i - 1];
      1 + n
    else 0
  }

  /** How many white-space characters `s` ends with. */
  function TrailingSpaces(s: string): (n: nat)
    ensures n <= |s|
    ensures forall i :: |s| - n <= i < |s| ==> IsSpace(s[i])
    ensures n < |s| ==> !IsSpace(s[|s| - 1 - n])
  {
    if s != [] && IsSpace(s[|s| - 1]) then
      var n := TrailingSpaces(s[..|s| - 1]);
      assert forall i :: 0 <= i < |s| - 1 ==> s[i] == s[..|s| - 1][i];
      1 + n
    else 0
  }

  /** `r` sits in `s` at offset `i` with only white space around it. */
  predicate IsTrimmedAt(s: string, r: string, i: int)
  {
    0 <= i && i + |r| <= |s| && s[i..i + |r|] == r &&
    (forall k :: 0 <= k < i ==> IsSpace(s[k])) &&
    (forall k :: i + |r| <= k < |s| ==> IsSpace(s[k]))
  }

  /** `String.prototype.trim`: the text with leading and trailing white space removed. */
  function Trim(s: string): (r: string)
    ensures r == [] <==> AllSpace(s)
    ensures r == [] || (!IsSpace(r[0]) && !IsSpace(r[|r| - 1]))
    ensures IsTrimmedAt(s, r, LeadingSpaces(s))
  {
    var a := LeadingSpaces(s);
    var b := TrailingSpaces(s[a..]);
    TrimmedSlice(s, a, b);
    s[a..|s| - b]
  }

  /** Cutting the leading and then the trailing white space leaves a trimmed slice. */
  lemma TrimmedSlice(s: string, a: nat, b: nat)
    requires a == LeadingSpaces(s) && b == TrailingSpaces(s[a..])
    ensures var r := s[a..|s| - b];
            (r == [] <==> AllSpace(s)) &&
            (r == [] || (!IsSpace(r[0]) && !IsSpace(r[|r| - 1]))) &&
            IsTrimmedAt(s, r, a)
  {
  }

  lemma TrimIdempotent(s: string)
    ensures Trim(Trim(s)) == Trim(s)
  {
  }

  predicate IsUpper(c: char)
  {
    'A' <= c <= 'Z'
  }

  function LowerChar(c: char): (d: char)
    ensures !IsUpper(d)
    ensures !IsUpper(c) ==> d == c
  {
    if IsUpper(c) then (c as int - 'A' as int + 'a' as int) as char else c
  }

  /** `toLowerCase` on ASCII letters: each character mapped on its own, length kept. */
  function Lower(s: string): (r: string)
    ensures |r| == |s|
    ensures forall i :: 0 <= i < |s| ==> r[i] == LowerChar(s[i])
  {
    if s == [] then [] else [LowerChar(s[0])] + Lower(s[1..])
  }

  lemma LowerIdempotent(s: string)
    ensures Lower(Lower(s)) == Lower(s)
  {
  }

  /** `sub` occurs in `s` starting at index `i`. */
  predicate OccursAt(s: string, sub: string, i: int)
  {
    0 <= i && i + |sub| <= |s| && s[i..i + |sub|] == sub
  }

  /** `String.prototype.includes`. */
  predicate Contains(s: string, sub: string)
  {
    exists i | 0 <= i <= |s| - |sub| :: OccursAt(s, sub, i)
  }

  lemma EveryStringContainsEmpty(s: string)
    ensures Contains(s, [])
  {
    assert OccursAt(s, [], 0);
  }

  lemma EveryStringContainsItself(s: string)
    ensures Contains(s, s)
  {
    assert OccursAt(s, s, 0);
  }
}

=== FILE: view.dfy ===
/**
  What the page shows and counts: the predicate `renderTasks` passes to
  `tasks.filter` (script.js:232-244) and the arithmetic of `updateStats`
  (script.js:322-327). Both read the task list and never change it.
 */
module View {
  import opened Wrappers
  import opened Seqs
  import opened Text
  import opened Tasks

  /** The value of `currentFilter`; the page only sets the first three. */
  datatype StatusFilter = All | Active | Completed | Unrecognized

  /** `needle` (already lower-cased) occurs in the lower-cased text or category. */
  predicate MatchesSearch(t: Task, needle: string)
  {
    Contains(Lower(t.text), needle) || Contains(Lower(t.category), needle)
  }

  predicate PassesStatus(t: Task, filter: StatusFilter)
  {
    match filter
    case Active => !t.completed
    case Completed => t.completed
    case _ => true
  }

  /** The filter callback of script.js:234-244, with the raw search box text. */
  predicate Keep(t: Task, filter: StatusFilter, searchTerm: string)
  {
    MatchesSearch(t, Lower(searchTerm)) && PassesStatus(t, filter)
  }

  /** The visible tasks: an order-preserving subsequence holding every copy of each task kept and nothing else. */
  function Project(ts: seq<Task>, filter: StatusFilter, searchTerm: string): (r: seq<Task>)
    ensures IsSubsequence(r, ts)
    ensures forall t :: t in r <==> t in ts && Keep(t, filter, searchTerm)
    ensures forall t :: multiset(r)[t] == if Keep(t, filter, searchTerm) then multiset(ts)[t] else 0
  {
    var keep := (t: Task) => Keep(t, filter, searchTerm);
    FilterIsSubsequence(ts, keep);
    FilterMembership(ts, keep);
    FilterCount(ts, keep);
    Filter(ts, keep)
  }

  /** An empty search term matches every task. */
  lemma EmptySearchMatchesAll(t: Task, filter: StatusFilter)
    ensures Keep(t, filter, []) == PassesStatus(t, filter)
  {
    EveryStringContainsEmpty(Lower(t.text));
  }

  /** The search ignores the case of the term: lower-casing it first changes nothing. */
  lemma SearchIgnoresTermCase(ts: seq<Task>, filter: StatusFilter, searchTerm: string)
    ensures Project(ts, filter, Lower(searchTerm)) == Project(ts, filter, searchTerm)
  {
    LowerIdempotent(searchTerm);
    FilterExtensional(ts, (t: Task) => Keep(t, filter, Lower(searchTerm)), (t: Task) => Keep(t, filter, searchTerm));
  }

  /** A task filed under category "Work" is found by the search "work". */
  lemma SearchWorkFindsCategoryWork(t: Task)
    requires t.category == "Work"
    ensures Keep(t, All, "work")
  {
    assert Lower("work") == "work";
    assert Lower(t.category) == "work";
    EveryStringContainsItself("work");
  }

  function CompletedTasks(ts: seq<Task>): seq<Task>
  {
    Filter(ts, (t: Task) => t.completed)
  }

  function ActiveTasks(ts: seq<Task>): seq<Task>
  {
    Filter(ts, (t: Task) => !t.completed)
  }

  /** With no search term the `all` filter shows the whole list in its order. */
  lemma ViewAllIsWholeList(ts: seq<Task>)
    ensures Project(ts, All, []) == ts
  {
    forall i | 0 <= i < |ts| ensures Keep(ts[i], All, []) {
      EmptySearchMatchesAll(ts[i], All);
    }
    FilterKeepsAll(ts, (t: Task) => Keep(t, All, []));
  }

  /** With no search term the `completed` filter shows exactly the completed tasks, in order. */
  lemma ViewCompletedIsCompletedTasks(ts: seq<Task>)
    ensures Project(ts, Completed, []) == CompletedTasks(ts)
  {
    forall i | 0 <= i < |ts| ensures Keep(ts[i], Completed, []) == ts[i].completed {
      EmptySearchMatchesAll(ts[i], Completed);
    }
    FilterExtensional(ts, (t: Task) => Keep(t, Completed, []), (t: Task) => t.completed);
  }

  /** With no search term the `active` filter shows exactly the unfinished tasks, in order. */
  lemma ViewActiveIsActiveTasks(ts: seq<Task>)
    ensures Project(ts, Active, []) == ActiveTasks(ts)
  {
    forall i | 0 <= i < |ts| ensures Keep(ts[i], Active, []) == !ts[i].completed {
      EmptySearchMatchesAll(ts[i], Active);
    }
    FilterExtensional(ts, (t: Task) => Keep(t, Active, []), (t: Task) => !t.completed);
  }

  datatype Stats = Stats(total: nat, completed: nat, active: int, percent: int)

  /** `Math.round(completed / total * 100)` in exact arithmetic: halves round up. */
  function RoundedPercent(completed: nat, total: nat): (p: int)
    requires 0 < total && completed <= total
    ensures 0 <= p <= 100
    ensures 2 * total * p <= 200 * completed + total < 2 * total * (p + 1)
  {
    var p := (200 * completed + total) / (2 * total);
    assert 2 * total * p <= 200 * completed + total < 2 * total * (p + 1);
    PercentBounds(completed, total, p);
    p
  }

  lemma PercentBounds(completed: nat, total: nat, p: int)
    requires 0 < total && completed <= total
    requires 2 * total * p <= 200 * completed + total < 2 * total * (p + 1)
    ensures 0 <= p <= 100
  {
    var k := 2 * total;
    assert k * 0 < k * (p + 1);
    CancelFactor(k, 0, p + 1);
    assert k * p < k * 101;
    CancelFactor(k, p, 101);
  }

  /** A positive factor can be cancelled from both sides of a strict inequality. */
  lemma CancelFactor(k: int, a: int, b: int)
    requires k > 0 && k * a < k * b
    ensures a < b
  {
  }

  /**
    script.js:322-327: the counts and the completion percentage, which is 0 for
    an empty list and otherwise the nearest whole percentage, halves rounded up.
   */
  function ComputeStats(ts: seq<Task>): (r: Stats)
    ensures r.total == |ts| && r.completed == |CompletedTasks(ts)|
    ensures r.active == |ActiveTasks(ts)| && r.active + r.completed == r.total
    ensures 0 <= r.percent <= 100
    ensures r.total == 0 ==> r.percent == 0
    ensures r.total > 0 ==> 2 * r.total * r.percent <= 200 * r.completed + r.total < 2 * r.total * (r.percent + 1)
  {
    var total := |ts|;
    var completed := |CompletedTasks(ts)|;
    FilterPartition(ts, (t: Task) => t.completed, (t: Task) => !t.completed);
    Stats(total, completed, total - completed, if total > 0 then RoundedPercent(completed, total) else 0)
  }

  /** Half of the tasks completed shows 50%, as with 2 of 4. */
  lemma HalfCompletedIsFifty(ts: seq<Task>)
    requires |ts| > 0 && 2 * |CompletedTasks(ts)| == |ts|
    ensures ComputeStats(ts).percent == 50
  {
    var r := ComputeStats(ts);
    var k, p := 2 * r.total, r.percent;
    assert 200 * r.completed + r.total == k * 50 + r.total;
    assert k * p < k * 51;
    CancelFactor(k, p, 51);
    assert k * 49 < k * (p + 1);
    CancelFactor(k, 49, p + 1);
  }

  /** Every task completed shows 100%. */
  lemma AllCompletedIsHundred(ts: seq<Task>)
    requires |ts| > 0 && |CompletedTasks(ts)| == |ts|
    ensures ComputeStats(ts).percent == 100
  {
    var r := ComputeStats(ts);
    var k, p := 2 * r.total, r.percent;
    assert 200 * r.completed + r.total == k * 100 + r.total;
    assert k * 99 < k * (p + 1);
    CancelFactor(k, 99, p + 1);
  }

  /** The empty list shows 0% and no division happens. */
  lemma EmptyListIsZero()
    ensures ComputeStats([]) == Stats(0, 0, 0, 0)
  {
  }
}

=== FILE: wrappers.dfy ===
/** The optional value used for absent due dates, failed look-ups and an empty storage slot. */
module Wrappers {

  datatype Option<+T> = None | Some(value: T)
}
